=== FILE: README.md ===
# pyramid_couchauth_example: password layer, user documents and settings resolution

A Dafny model of the core of `pyramid_couchauth_example/model.py`, the
authentication model of a small Pyramid application backed by CouchDB:

- `hashpw` and `hashcmp`, the wrappers around bcrypt (module `Crypt`,
  `crypt.dfy`);
- the `Permission`, `Group` and `User` documents and `User.create`,
  `User.authenticate` and `User.set_password` (module `Records`,
  `records.dfy`);
- the settings lookups of `CouchSession.configure` and `init_model`, and the
  binding of the three document classes to the selected database (module
  `Session`, `session.dfy`).

`outcome.dfy` holds the `Option` type for Python's `None` and the `Result`
type for a call that returns or raises.

## How bcrypt is modelled

bcrypt is foreign code. Every operation takes it as a parameter
`bcrypt: (string, string) -> Result<string>`: for a password and a salt it
returns a hash or raises. The randomness of `bcrypt.gensalt()` is the
parameter `drawn`, the salt that call would return.

The module imports `bcrypt`, a name two libraries provide: py-bcrypt, which
the code was written against in 2011, and the later pyca/bcrypt. The premise
`Crypt.KeepsSalt` below holds of both. The results about `authenticate`
describe py-bcrypt only, because pyca/bcrypt refuses the `unicode` hash that
`hashpw` stores (see "## Left out").

A salt is the 29-character setting string `$2<v>$<two-digit cost>$<22
salt characters>`, where the letter `v` is `a` (py-bcrypt's `gensalt`), `b`
(pyca/bcrypt's `gensalt`) or `y` (`Crypt.EncodeSetting` / `Crypt.DecodeSetting`; `Crypt.IsSalt`
holds of the well-formed ones). The 22 salt characters carry 132 bits, but
bcrypt's salt is 16 bytes. So bcrypt drops the low four bits of the last
character. When it writes the salt into its output, that character is cleared
to one of `.`, `O`, `e`, `u` (`Crypt.Canonical`). Both libraries' `gensalt` only
draws salts already in that form (`Crypt.IsCanonicalSalt`). An explicit salt such as
`$2a$10$aaaaaaaaaaaaaaaaaaaaaa` is accepted, and the hash then begins
`$2a$10$aaaaaaaaaaaaaaaaaaaaaO` (`Crypt.NonCanonicalSaltExample`).

What the code relies on is the predicate `Crypt.KeepsSalt(bcrypt)`. It covers
every salt `Crypt.IsSalt` holds of, and says two things:

- a hash bcrypt returns begins with the canonical form of the salt;
- the outcome, hash or raise, is the same as for the canonical form, since the
  dropped bits play no part.

It does not say that bcrypt succeeds. The Python bindings raise on some
passwords, for example one holding a NUL character. So every result about
verification is stated for the case where hashing returned.
`Crypt.KeepsSaltSatisfiable` and `Crypt.KeepsSaltAllowsRefusedPasswords` show
that libraries meeting the premise exist, including one that refuses
passwords. The round trip holds for explicit non-canonical salts too. Only
the claim "the first 29 characters are the salt" needs the salt to be
canonical.

Exceptions are `Raised` values. A salt or a password bcrypt refuses makes
`hashpw`, `hashcmp`, `create`, `authenticate` and `set_password` raise. `authenticate`
on a document whose `password` property was never set also raises, as slicing
`None` does. A raise in `set_password` leaves the document as it was.

Documents are values. So the embedded copies of `SchemaListProperty` behave as
snapshots with no further modelling: changing a stand-alone `Group` or
`Permission` cannot change a copy already embedded in a `User`.

`hashcmp`'s docstring (pyramid_couchauth_example/model.py:29-33) promises
True or False. For a stored hash whose first 29 characters are not a salt
bcrypt accepts, the code does not return False. It hands the slice to bcrypt
(model.py:35-36), and bcrypt raises. The model follows the code:
`Crypt.HashCmp` raises exactly when that re-hash raises.

## Model

| member | source | states |
|---|---|---|
| `Crypt.HashPw` | pyramid_couchauth_example/model.py:15-25 | the hash is bcrypt of the password under the given salt, or under the drawn salt exactly when none is given |
| `Crypt.HashPwDeterministic` | pyramid_couchauth_example/model.py:23-25 | with an explicit salt the result does not depend on what `gensalt` would draw, so two calls with the same password and salt agree |
| `Crypt.HashPwEmbedsSalt` | pyramid_couchauth_example/model.py:15-25 | with a covered salt, given or drawn, a hash that is returned has the canonical form of the salt as its first 29 characters, and so the salt itself when it is canonical ("the hash, which includes the salt") |
| `Crypt.SaltOf` | pyramid_couchauth_example/model.py:35 | `hash[:29]` is a prefix of the hash, 29 characters long, or the whole hash when it is shorter |
| `Crypt.EncodeSetting` | pyramid_couchauth_example/model.py:35 | a rendered salt setting is exactly 29 characters, with `$` separators at positions 0, 3 and 6 and the salt characters last |
| `Crypt.DecodeSetting` | pyramid_couchauth_example/model.py:35 | a string parses as a salt setting only if it is 29 characters long and its fields are in range |
| `Crypt.DecodeEncodeSetting` | pyramid_couchauth_example/model.py:35 | parsing a rendered setting gives back its variant, cost and salt characters |
| `Crypt.EncodeDecodeSetting` | pyramid_couchauth_example/model.py:35 | rendering the fields parsed from a covered salt gives back that exact string |
| `Crypt.CanonicalLastChar` | pyramid_couchauth_example/model.py:17-18 | the last salt character as bcrypt writes it is the one whose six-bit value is the original's with the low four bits cleared |
| `Crypt.Canonical` | pyramid_couchauth_example/model.py:17-18 | the salt bcrypt writes into its output keeps the first 28 characters, ends in the last character with its dropped bits cleared, and equals the given salt exactly when that salt is canonical |
| `Crypt.CanonicalIdempotent` | pyramid_couchauth_example/model.py:17-18 | putting a salt in canonical form twice is the same as once |
| `Crypt.NonCanonicalSaltExample` | pyramid_couchauth_example/model.py:17-18 | `$2a$10$` followed by 22 `a`s is covered but not canonical, and bcrypt writes its last character as `O` |
| `Crypt.KeepsSaltSatisfiable` | pyramid_couchauth_example/model.py:15-36 | some library meets the assumption the verification results rest on, so those results are not vacuous |
| `Crypt.KeepsSaltAllowsRefusedPasswords` | pyramid_couchauth_example/model.py:15-36 | a library that raises on a password holding a NUL character also meets the assumption, so the results cover libraries that refuse passwords |
| `Crypt.HashCmp` | pyramid_couchauth_example/model.py:27-36 | comparison succeeds exactly when re-hashing with the 29-character prefix succeeds, and then answers true exactly when the stored hash equals that re-hash |
| `Crypt.HashCmpTrueIffRehash` | pyramid_couchauth_example/model.py:35-36 | a stored hash verifies exactly when it is bcrypt's hash of the candidate under the stored hash's own prefix |
| `Crypt.HashCmpDecides` | pyramid_couchauth_example/model.py:27-36 | for a hash bcrypt returned for password q under a covered salt s, canonical or not, comparing candidate c raises exactly when bcrypt raises on c under s, and otherwise answers whether bcrypt maps c and q to the same hash under s |
| `Crypt.HashCmpRoundTrip` | pyramid_couchauth_example/model.py:15-36 | a hash that `hashpw` returns under a covered salt, given or drawn, verifies against its own password |
| `Records.Create` | pyramid_couchauth_example/model.py:59-69 | a new user keeps the username and groups given, stores bcrypt's hash under the drawn salt as the password, and fails exactly when hashing fails |
| `Records.CreateStoresSaltedHash` | pyramid_couchauth_example/model.py:59-69 | when `create` returns, the stored password begins with the canonical form of the drawn salt, which is the drawn salt when `gensalt` produced it, and so differs from the plaintext unless the plaintext itself begins with that salt |
| `Records.CreateThenAuthenticate` | pyramid_couchauth_example/model.py:59-77 | a user that `create` returns authenticates with the password it was created with |
| `Records.Authenticate` | pyramid_couchauth_example/model.py:71-77 | authentication is `hashcmp` of the stored password and the candidate, and fails when no password is stored |
| `Records.SetPassword` | pyramid_couchauth_example/model.py:79-84 | only the password changes, to bcrypt's hash of the new password under a freshly drawn salt; username and groups are kept |
| `Records.SetPasswordThenAuthenticate` | pyramid_couchauth_example/model.py:71-84 | after `set_password` returns, the user authenticates with the new password |
| `Records.SetPasswordDecides` | pyramid_couchauth_example/model.py:71-84 | after `set_password` returns, authenticating any candidate, the old password included, raises exactly when bcrypt refuses it, and otherwise succeeds exactly when bcrypt maps it to the same hash under the new salt |
| `Records.SetPasswordIgnoresOldHash` | pyramid_couchauth_example/model.py:79-84 | the result does not depend on the old stored hash: the old hash is never read |
| `Session.ResolveEndpoint` | pyramid_couchauth_example/model.py:92-109 | the server is `settings['couch.uri']` exactly when that key is present, and the default local server otherwise |
| `Session.ResolveDbName` | pyramid_couchauth_example/model.py:121-127 | the database name is `settings['whatcouch.db']` when that key is present and `"auth"` otherwise |
| `Session.Configure` | pyramid_couchauth_example/model.py:94-109 | configuring sets the server to the resolved endpoint and changes nothing else |
| `Session.InitModel` | pyramid_couchauth_example/model.py:115-135 | after `init_model` the session's database is the resolved name on the resolved server, and `User`, `Group` and `Permission` are all bound to it |
| `Session.InitModelDependsOnlyOnTwoKeys` | pyramid_couchauth_example/model.py:115-135 | two runs of `init_model` whose settings agree on `couch.uri` and `whatcouch.db` reach the same state, whatever the earlier state |
| `Session.InitModelIdempotent` | pyramid_couchauth_example/model.py:115-135 | running `init_model` twice with the same settings is the same as running it once |
| `Session.InitModelFromDefaults` | pyramid_couchauth_example/model.py:99-128 | with neither key set, every document class is bound to the `"auth"` database on the default server, whatever the earlier state |

## Left out

- bcrypt itself: the Blowfish-based derivation, the cost factor's effect and `gensalt`'s randomness are foreign code. bcrypt is a parameter, and the only facts assumed about it are those in `KeepsSalt`.
- Which passwords bcrypt refuses: the Python bindings raise on a password holding a NUL character, and on other inputs depending on release. `KeepsSalt` does not promise success, so the lemmas about `hashpw`, `hashcmp`, `create`, `authenticate` and `set_password` take a returned hash as a premise. When bcrypt refuses, the operation raises, as `Records.Create` and `Records.SetPassword` state.
- Rejection of a wrong password: that `hashcmp(hashpw(p), q)` is false for `q != p` would need bcrypt to be collision-free. That is a cryptographic assumption, not something the code promises. `Crypt.HashCmpDecides` states exactly what the comparison decides instead.
- `Crypt.HashCmp`: promises nothing beyond "raises when the re-hash raises" for a stored hash whose first 29 characters are not a covered salt, because the code hands that slice to bcrypt unchecked.
- Salts with another identifier than `$2a$`, `$2b$` or `$2y$`: py-bcrypt also accepts `$2$`, and neither py-bcrypt nor pyca/bcrypt accepts `$2x$`. A whole stored hash passed as the salt is accepted too. `IsSalt` excludes them, so the verification results say nothing about them; the model lets bcrypt raise or not on them.
- pyca/bcrypt's string types: under Python 2 its `hashpw` raises `TypeError` on a `unicode` salt. `hashpw` stores `unicode(...)` (model.py:25), so the `hash[:29]` of model.py:35 is `unicode`, and with that library every `authenticate` of a stored hash raises. The model has a single string type and cannot tell the two apart. So `Records.CreateThenAuthenticate`, `Records.SetPasswordThenAuthenticate` and `Records.SetPasswordDecides` describe py-bcrypt, which accepts ASCII `unicode` arguments.
- couchdbkit persistence: `Server`, `get_or_create_db`, `set_db`, the `required=True` check made when saving, and uniqueness of names are storage I/O. The model keeps only which server and database name are asked for.
- `unicode(...)` around bcrypt's result: for py-bcrypt it changes only the string type, so strings are `string`. For pyca/bcrypt, see the line above. The mutable default `groups=[]` is a Python detail, and groups are an immutable sequence.
- `views/page.py`: the Pyramid request handlers depend only on the framework call `authenticated_userid`. `private` performs no access check, so there is no authorization property to state.

=== FILE: crypt.dfy ===
/** The password layer: `hashpw` and `hashcmp`, which wrap the bcrypt library.

    bcrypt itself is foreign code, so every operation takes it as a parameter
    `bcrypt(password, salt)` that either returns the hash string or raises
    (`Raised` with the library's message). What the code relies on about it is
    stated as the predicate `KeepsSalt`, and results about verification take
    `KeepsSalt(bcrypt)` as a premise. */
module Crypt {
  import opened Outcome

  /** The library entry point `bcrypt.hashpw(password, salt)`. */
  type Bcrypt = (string, string) -> Result<string>

  /** Length of the setting prefix `$2a$NN$` followed by 22 salt characters. */
  const SaltLength: nat := 29

  /** Number of encoded salt characters after the cost field. */
  const SaltChars: nat := 22

  /** The parsed fields of a bcrypt setting string. */
  datatype Setting = Setting(variant: char, cost: nat, salt: string)

  /** The minor-version letter of the identifier `$2<letter>$`: `a`, which
      py-bcrypt's `gensalt` emits, `b`, which pyca/bcrypt's `gensalt` emits,
      and `y`. A library that does not accept one of them raises on it. */
  predicate IsVariant(c: char) {
    c == 'a' || c == 'b' || c == 'y'
  }

  /** bcrypt's base-64 alphabet `./A-Za-z0-9`. */
  predicate IsSaltChar(c: char) {
    c == '.' || c == '/' || ('A' <= c <= 'Z') || ('a' <= c <= 'z') || ('0' <= c <= '9')
  }

  /** The position of a character in bcrypt's base-64 alphabet, which is the
      six-bit value it encodes. */
  function SaltCharIndex(c: char): (i: nat)
    requires IsSaltChar(c)
    ensures i < 64
  {
    if c == '.' then 0
    else if c == '/' then 1
    else if 'A' <= c <= 'Z' then c as int - 'A' as int + 2
    else if 'a' <= c <= 'z' then c as int - 'a' as int + 28
    else c as int - '0' as int + 54
  }

  predicate IsDigitChar(c: char) {
    '0' <= c <= '9'
  }

  /** The cost factors bcrypt accepts (log2 of the number of rounds). */
  predicate IsCost(cost: nat) {
    4 <= cost <= 31
  }

  predicate ValidSetting(st: Setting) {
    && IsVariant(st.variant)
    && IsCost(st.cost)
    && |st.salt| == SaltChars
    && forall i :: 0 <= i < |st.salt| ==> IsSaltChar(st.salt[i])
  }

  function DigitChar(d: nat): (c: char)
    requires d < 10
    ensures IsDigitChar(c)
    ensures DigitValue(c) == d
  {
    ('0' as int + d) as char
  }

  function DigitValue(c: char): nat
    requires IsDigitChar(c)
  {
    c as int - '0' as int
  }

  /** Renders a setting as `$2<variant>$<two-digit cost>$<salt>`. */
  function EncodeSetting(st: Setting): (s: string)
    requires ValidSetting(st)
    ensures |s| == SaltLength
    ensures s[0] == '$' && s[3] == '$' && s[6] == '$'
    ensures s[SaltLength - SaltChars..] == st.salt
  {
    "$2" + [st.variant] + "$" + [DigitChar(st.cost / 10), DigitChar(st.cost % 10)] + "$" + st.salt
  }

  /** Parses a setting string; `None` when `s` is not exactly one well-formed
      setting. */
  function DecodeSetting(s: string): (r: Option<Setting>)
    ensures r.Some? ==> ValidSetting(r.value) && |s| == SaltLength
  {
    if |s| == SaltLength && s[0] == '$' && s[1] == '2' && IsVariant(s[2]) && s[3] == '$'
       && IsDigitChar(s[4]) && IsDigitChar(s[5]) && s[6] == '$'
       && IsCost(10 * DigitValue(s[4]) + DigitValue(s[5]))
       && (forall i :: 7 <= i < SaltLength ==> IsSaltChar(s[i]))
    then Some(Setting(s[2], 10 * DigitValue(s[4]) + DigitValue(s[5]), s[7..]))
    else None
  }

  /** The salts the model covers: one well-formed 29-character `$2a$`,
      `$2b$` or `$2y$` setting, as `gensalt` draws. */
  predicate IsSalt(s: string) {
    DecodeSetting(s).Some?
  }

  /** Parsing a rendered setting gives back its fields. */
  lemma DecodeEncodeSetting(st: Setting)
    requires ValidSetting(st)
    ensures DecodeSetting(EncodeSetting(st)) == Some(st)
  {
  }

  /** Rendering the fields of a parsed salt gives back the salt itself. */
  lemma EncodeDecodeSetting(s: string)
    requires IsSalt(s)
    ensures EncodeSetting(DecodeSetting(s).value) == s
  {
  }

  /** The 22 salt characters carry 132 bits, of which bcrypt keeps the 128 of
      its 16-byte salt: the low four bits of the last character are dropped.
      This is the last character with those bits cleared; it is one of
      `.`, `O`, `e`, `u`. */
  function CanonicalLastChar(c: char): (r: char)
    requires IsSaltChar(c)
    ensures IsSaltChar(r)
    ensures SaltCharIndex(r) == SaltCharIndex(c) / 16 * 16
  {
    var i := SaltCharIndex(c);
    if i < 16 then '.' else if i < 32 then 'O' else if i < 48 then 'e' else 'u'
  }

  /** A salt whose last character carries no dropped bits, as `gensalt`
      produces: bcrypt writes such a salt back out unchanged. */
  predicate IsCanonicalSalt(s: string) {
    IsSalt(s) && SaltCharIndex(s[SaltLength - 1]) % 16 == 0
  }

  /** The salt as bcrypt writes it into its output: the same setting with the
      dropped bits of the last character cleared. */
  function Canonical(s: string): (r: string)
    requires IsSalt(s)
    ensures IsCanonicalSalt(r)
    ensures |r| == SaltLength && r[..SaltLength - 1] == s[..SaltLength - 1]
    ensures r[SaltLength - 1] == CanonicalLastChar(s[SaltLength - 1])
    ensures r == s <==> IsCanonicalSalt(s)
  {
    var r := s[..SaltLength - 1] + [CanonicalLastChar(s[SaltLength - 1])];
    assert forall i :: 7 <= i < SaltLength - 1 ==> r[i] == s[i];
    r
  }

  /** Clearing the dropped bits a second time changes nothing. */
  lemma CanonicalIdempotent(s: string)
    requires IsSalt(s)
    ensures Canonical(Canonical(s)) == Canonical(s)
  {
  }

  /** A covered salt need not be canonical: with `a` as the last salt
      character bcrypt writes `O` in its place. */
  lemma NonCanonicalSaltExample()
    ensures IsSalt("$2a$10$aaaaaaaaaaaaaaaaaaaaaa")
    ensures !IsCanonicalSalt("$2a$10$aaaaaaaaaaaaaaaaaaaaaa")
    ensures Canonical("$2a$10$aaaaaaaaaaaaaaaaaaaaaa") == "$2a$10$aaaaaaaaaaaaaaaaaaaaaO"
  {
  }

  /** The assumption about the library. For every salt the model covers,
      a hash bcrypt returns begins with the canonical form of the salt, and
      the outcome (hash or raise) is the one the canonical form itself gives:
      the dropped bits play no part. bcrypt may still raise, for instance on
      a password it refuses. For a canonical salt, as `gensalt` draws, a hash
      thus begins with the salt it was given. */
  ghost predicate KeepsSalt(bcrypt: Bcrypt) {
    forall password, salt :: IsSalt(salt) ==>
      && (bcrypt(password, salt).Ok? ==> Canonical(salt) <= bcrypt(password, salt).value)
      && bcrypt(password, salt) == bcrypt(password, Canonical(salt))
  }

  /** The assumption can be met, so the results that rest on it are not
      vacuous: a library that echoes the canonical salt before the password
      satisfies it. */
  lemma KeepsSaltSatisfiable()
    ensures KeepsSalt((p: string, s: string) => if IsSalt(s) then Ok(Canonical(s) + p) else Raised("invalid salt"))
  {
  }

  /** The assumption leaves room for a library that refuses some passwords:
      one that raises on a password holding a NUL character meets it. */
  lemma KeepsSaltAllowsRefusedPasswords()
    ensures KeepsSalt((p: string, s: string) =>
              if IsSalt(s) && '\0' !in p then Ok(Canonical(s) + p) else Raised("invalid argument"))
  {
  }

  /** Python's `hash[:29]`: the first 29 characters, or the whole string when
      it is shorter. */
  function SaltOf(hash: string): (r: string)
    ensures r <= hash
    ensures |r| == if |hash| < SaltLength then |hash| else SaltLength
  {
    if |hash| < SaltLength then hash else hash[..SaltLength]
  }

  /** The salt `hashpw` hands to bcrypt: the one given, or else the one
      `gensalt` draws. */
  function SaltUsed(salt: Option<string>, drawn: string): string {
    match salt
    case Some(s) => s
    case None => drawn
  }

  /** `hashpw(password, salt=None)`. `drawn` stands for what `bcrypt.gensalt()`
      would return; it is used only when no salt is given. */
  function HashPw(bcrypt: Bcrypt, password: string, salt: Option<string>, drawn: string): (r: Result<string>)
    ensures salt.Some? ==> r == bcrypt(password, salt.value)
    ensures salt.None? ==> r == bcrypt(password, drawn)
  {
    bcrypt(password, SaltUsed(salt, drawn))
  }

  /** `hashcmp(hash, password)`: re-hash `password` with the salt cut from the
      stored hash and compare. A raise in the library propagates. */
  function HashCmp(bcrypt: Bcrypt, hash: string, password: string): (r: Result<bool>)
    ensures r.Ok? <==> bcrypt(password, SaltOf(hash)).Ok?
    ensures r.Ok? ==> (r.value <==> hash == bcrypt(password, SaltOf(hash)).value)
  {
    // No salt is drawn when one is passed, so the drawn value is irrelevant.
    var h :- HashPw(bcrypt, password, Some(SaltOf(hash)), "");
    Ok(hash == h)
  }

  /** With an explicit salt the hash is a function of password and salt alone:
      whatever `gensalt` would have returned is not consulted. */
  lemma HashPwDeterministic(bcrypt: Bcrypt, password: string, salt: string, drawn1: string, drawn2: string)
    ensures HashPw(bcrypt, password, Some(salt), drawn1) == HashPw(bcrypt, password, Some(salt), drawn2)
  {
  }

  /** The hash includes the salt: with a covered salt, given or drawn, a hash
      that is returned has the salt in canonical form as its first 29
      characters, and so the salt itself when it is canonical. */
  lemma HashPwEmbedsSalt(bcrypt: Bcrypt, password: string, salt: Option<string>, drawn: string)
    requires KeepsSalt(bcrypt)
    requires IsSalt(SaltUsed(salt, drawn))
    ensures HashPw(bcrypt, password, salt, drawn).Ok? ==>
              SaltOf(HashPw(bcrypt, password, salt, drawn).value) == Canonical(SaltUsed(salt, drawn))
    ensures HashPw(bcrypt, password, salt, drawn).Ok? && IsCanonicalSalt(SaltUsed(salt, drawn)) ==>
              SaltOf(HashPw(bcrypt, password, salt, drawn).value) == SaltUsed(salt, drawn)
  {
  }

  /** What verifying a stored hash decides: if bcrypt returned `hash` for some
      password `q` under a covered salt `s`, then `hashcmp(hash, c)` raises
      exactly when bcrypt raises on `c` under `s`, and otherwise is true
      exactly when `c` hashes to the same string under `s`. */
  lemma HashCmpDecides(bcrypt: Bcrypt, q: string, s: string, c: string)
    requires KeepsSalt(bcrypt)
    requires IsSalt(s)
    ensures bcrypt(q, s).Ok? ==>
              (HashCmp(bcrypt, bcrypt(q, s).value, c).Ok? <==> bcrypt(c, s).Ok?)
    ensures bcrypt(q, s).Ok? && bcrypt(c, s).Ok? ==>
              HashCmp(bcrypt, bcrypt(q, s).value, c) == Ok(bcrypt(c, s).value == bcrypt(q, s).value)
  {
    if bcrypt(q, s).Ok? {
      HashPwEmbedsSalt(bcrypt, q, Some(s), "");
      assert bcrypt(c, s) == bcrypt(c, Canonical(s));
    }
  }

  /** Round trip: a hash made by `hashpw` verifies against its own password. */
  lemma HashCmpRoundTrip(bcrypt: Bcrypt, password: string, salt: Option<string>, drawn: string)
    requires KeepsSalt(bcrypt)
    requires IsSalt(SaltUsed(salt, drawn))
    ensures HashPw(bcrypt, password, salt, drawn).Ok? ==>
              HashCmp(bcrypt, HashPw(bcrypt, password, salt, drawn).value, password) == Ok(true)
  {
    HashCmpDecides(bcrypt, password, SaltUsed(salt, drawn), password);
  }

  /** A stored hash verifies exactly when it is bcrypt's hash of the candidate
      under the stored hash's own 29-character prefix. */
  lemma HashCmpTrueIffRehash(bcrypt: Bcrypt, hash: string, c: string)
    ensures HashCmp(bcrypt, hash, c) == Ok(true) <==> bcrypt(c, SaltOf(hash)) == Ok(hash)
  {
  }
}

=== FILE: outcome.dfy ===
/** Values standing in for Python's `None` and for a call that may raise. */
module Outcome {

  /** A property that may hold `None`. */
  datatype Option<+T> = None | Some(value: T)

  /** What a Python call does: return `value`, or raise with `message`. */
  datatype Result<+R> = Ok(value: R) | Raised(message: string) {

    // The three members below let `:-` propagate a raise to the caller.

    predicate IsFailure() {
      Raised?
    }

    function PropagateFailure<U>(): Result<U>
      requires Raised?
    {
      Raised(message)
    }

    function Extract(): R
      requires Ok?
    {
      value
    }
  }
}

=== FILE: records.dfy ===
/** The `Permission`, `Group` and `User` documents and the user's password
    operations.

    Groups and permissions are embedded by value, as couchdbkit's
    `SchemaListProperty` embeds copies: a user holds snapshots of its groups and
    a group holds snapshots of its permissions. Dafny datatypes are values, so a
    later change to a stand-alone `Group` or `Permission` cannot reach a copy
    already embedded in a user. */
module Records {
  import opened Outcome
  import opened Crypt

  datatype Permission = Permission(name: string)

  datatype Group = Group(name: string, permissions: seq<Permission>)

  /** `password` is an optional property of the document: it is absent until
      `create` or `set_password` stores a hash in it. */
  datatype User = User(username: string, password: Option<string>, groups: seq<Group>)

  /** `User.create(username, password, groups)`: hash the password with a
      freshly drawn salt and build the document. The plaintext is never stored. */
  function Create(bcrypt: Bcrypt, username: string, password: string, groups: seq<Group>, drawn: string)
    : (r: Result<User>)
    ensures r.Ok? <==> bcrypt(password, drawn).Ok?
    ensures r.Ok? ==>
              && r.value.username == username
              && r.value.groups == groups
              && r.value.password == Some(bcrypt(password, drawn).value)
  {
    var hash :- HashPw(bcrypt, password, None, drawn);
    Ok(User(username, Some(hash), groups))
  }

  /** `User.authenticate(password)`: compare the stored hash with the
      candidate. A document without a password raises, as slicing `None` does. */
  function Authenticate(bcrypt: Bcrypt, u: User, candidate: string): (r: Result<bool>)
    ensures u.password.None? ==> r.Raised?
    ensures u.password.Some? ==> r == HashCmp(bcrypt, u.password.value, candidate)
  {
    match u.password
    case None => Raised("password is not set")
    case Some(hash) => HashCmp(bcrypt, hash, candidate)
  }

  /** `User.set_password(password)`: the updated document, with a hash of the
      new password under a freshly drawn salt. When hashing raises the document
      is left as it was, so the failure carries no document. */
  function SetPassword(bcrypt: Bcrypt, u: User, password: string, drawn: string): (r: Result<User>)
    ensures r.Ok? <==> bcrypt(password, drawn).Ok?
    ensures r.Ok? ==>
              && r.value.username == u.username
              && r.value.groups == u.groups
              && r.value.password == Some(bcrypt(password, drawn).value)
  {
    var hash :- HashPw(bcrypt, password, None, drawn);
    Ok(u.(password := Some(hash)))
  }

  /** A user that `create` returns stores a hash that begins with the drawn
      salt in canonical form, which is the drawn salt itself when `gensalt`
      produced it; the stored value differs from the plaintext unless the
      plaintext itself happens to begin with that salt. */
  lemma CreateStoresSaltedHash(bcrypt: Bcrypt, username: string, password: string, groups: seq<Group>, drawn: string)
    requires KeepsSalt(bcrypt)
    requires IsSalt(drawn)
    ensures Create(bcrypt, username, password, groups, drawn).Ok? ==>
              SaltOf(Create(bcrypt, username, password, groups, drawn).value.password.value) == Canonical(drawn)
    ensures Create(bcrypt, username, password, groups, drawn).Ok? && IsCanonicalSalt(drawn) ==>
              SaltOf(Create(bcrypt, username, password, groups, drawn).value.password.value) == drawn
    ensures Create(bcrypt, username, password, groups, drawn).Ok? && !(Canonical(drawn) <= password) ==>
              Create(bcrypt, username, password, groups, drawn).value.password != Some(password)
  {
  }

  /** A new user authenticates with the password it was created with;
      `create` itself raises when bcrypt refuses that password. */
  lemma CreateThenAuthenticate(bcrypt: Bcrypt, username: string, password: string, groups: seq<Group>, drawn: string)
    requires KeepsSalt(bcrypt)
    requires IsSalt(drawn)
    ensures Create(bcrypt, username, password, groups, drawn).Ok? ==>
              Authenticate(bcrypt, Create(bcrypt, username, password, groups, drawn).value, password) == Ok(true)
  {
    HashCmpRoundTrip(bcrypt, password, None, drawn);
  }

  /** After `set_password(new)` returns, the user authenticates with `new`. */
  lemma SetPasswordThenAuthenticate(bcrypt: Bcrypt, u: User, password: string, drawn: string)
    requires KeepsSalt(bcrypt)
    requires IsSalt(drawn)
    ensures SetPassword(bcrypt, u, password, drawn).Ok? ==>
              Authenticate(bcrypt, SetPassword(bcrypt, u, password, drawn).value, password) == Ok(true)
  {
    HashCmpRoundTrip(bcrypt, password, None, drawn);
  }

  /** After `set_password(new)` returns, authenticating any candidate, the
      old password included, raises exactly when bcrypt refuses the candidate,
      and otherwise succeeds exactly when bcrypt maps it to the same hash as
      `new` under the fresh salt. */
  lemma SetPasswordDecides(bcrypt: Bcrypt, u: User, password: string, drawn: string, candidate: string)
    requires KeepsSalt(bcrypt)
    requires IsSalt(drawn)
    ensures SetPassword(bcrypt, u, password, drawn).Ok? ==>
              (Authenticate(bcrypt, SetPassword(bcrypt, u, password, drawn).value, candidate).Ok?
               <==> bcrypt(candidate, drawn).Ok?)
    ensures SetPassword(bcrypt, u, password, drawn).Ok? && bcrypt(candidate, drawn).Ok? ==>
              Authenticate(bcrypt, SetPassword(bcrypt, u, password, drawn).value, candidate)
              == Ok(bcrypt(candidate, drawn).value == bcrypt(password, drawn).value)
  {
    HashCmpDecides(bcrypt, password, drawn, candidate);
  }

  /** The new hash depends only on the new password and the freshly drawn
      salt: the old hash is never read. */
  lemma SetPasswordIgnoresOldHash(bcrypt: Bcrypt, u: User, previous: Option<string>, password: string, drawn: string)
    ensures SetPassword(bcrypt, u, password, drawn) == SetPassword(bcrypt, u.(password := previous), password, drawn)
  {
  }
}

=== FILE: session.dfy ===
/** `CouchSession.configure` and `init_model`: choosing the CouchDB server and
    the database from the WSGI settings, and binding the three document classes
    to that database.

    Connecting to the server and creating the database are storage I/O and are
    not modelled: a `Database` value only names the server and database that
    `get_or_create_db` is asked for. */
module Session {
  import opened Outcome

  /** The WSGI settings dictionary. */
  type Settings = map<string, string>

  const UriKey: string := "couch.uri"
  const DbKey: string := "whatcouch.db"
  const DefaultDbName: string := "auth"

  /** `Server()` (couchdbkit's default, the local server) or `Server(uri)`. */
  datatype Endpoint = DefaultServer | ServerAt(uri: string)

  datatype Database = Database(server: Endpoint, name: string)

  /** The document classes that `init_model` binds with `set_db`. */
  datatype DocClass = UserDoc | GroupDoc | PermissionDoc

  /** The module-level `Session` object plus the classes' database bindings.
      `server` and `auth` are absent until `configure` and `init_model` set
      them. */
  datatype State = State(server: Option<Endpoint>, auth: Option<Database>, bindings: map<DocClass, Database>)

  /** The state at import time: nothing configured, nothing bound. */
  const Initial: State := State(None, None, map[])

  /** The session holds `db` and every document class is bound to it. */
  predicate BoundTo(s: State, db: Database) {
    && s.auth == Some(db)
    && UserDoc in s.bindings && s.bindings[UserDoc] == db
    && GroupDoc in s.bindings && s.bindings[GroupDoc] == db
    && PermissionDoc in s.bindings && s.bindings[PermissionDoc] == db
  }

  /** The server `configure` connects to. */
  function ResolveEndpoint(settings: Settings): (e: Endpoint)
    ensures e.ServerAt? <==> UriKey in settings
    ensures e.ServerAt? ==> e.uri == settings[UriKey]
  {
    if UriKey in settings then ServerAt(settings[UriKey]) else DefaultServer
  }

  /** The database name `init_model` selects. */
  function ResolveDbName(settings: Settings): (name: string)
    ensures DbKey in settings ==> name == settings[DbKey]
    ensures DbKey !in settings ==> name == DefaultDbName
  {
    if DbKey in settings then settings[DbKey] else DefaultDbName
  }

  /** `Session.configure(settings)`: only the server changes. */
  function Configure(s: State, settings: Settings): (r: State)
    ensures r.server == Some(ResolveEndpoint(settings))
    ensures r.auth == s.auth && r.bindings == s.bindings
  {
    s.(server := Some(ResolveEndpoint(settings)))
  }

  /** `init_model(settings)`: configure, select the database on that server,
      then bind `User`, `Group` and `Permission` to it in turn. */
  function InitModel(s: State, settings: Settings): (r: State)
    ensures r.server == Some(ResolveEndpoint(settings))
    ensures BoundTo(r, Database(ResolveEndpoint(settings), ResolveDbName(settings)))
  {
    var configured := Configure(s, settings);
    var db := Database(configured.server.value, ResolveDbName(settings));
    var withAuth := configured.(auth := Some(db));
    withAuth.(bindings := withAuth.bindings[UserDoc := db][GroupDoc := db][PermissionDoc := db])
  }

  /** The only settings `init_model` reads are `couch.uri` and
      `whatcouch.db`, and nothing of the earlier state survives it. */
  lemma InitModelDependsOnlyOnTwoKeys(s1: State, s2: State, settings1: Settings, settings2: Settings)
    requires UriKey in settings1 <==> UriKey in settings2
    requires UriKey in settings1 ==> settings1[UriKey] == settings2[UriKey]
    requires DbKey in settings1 <==> DbKey in settings2
    requires DbKey in settings1 ==> settings1[DbKey] == settings2[DbKey]
    ensures InitModel(s1, settings1) == InitModel(s2, settings2)
  {
    var r1, r2 := InitModel(s1, settings1), InitModel(s2, settings2);
    var db := Database(ResolveEndpoint(settings1), ResolveDbName(settings1));
    var full := map[UserDoc := db, GroupDoc := db, PermissionDoc := db];
    forall c: DocClass
      ensures c in r1.bindings && r1.bindings[c] == db
      ensures c in r2.bindings && r2.bindings[c] == db
      ensures c in full && full[c] == db
    {
      match c
      case UserDoc =>
      case GroupDoc =>
      case PermissionDoc =>
    }
    assert r1.bindings == full;
    assert r2.bindings == full;
  }

  /** Running `init_model` again with the same settings changes nothing. */
  lemma InitModelIdempotent(s: State, settings: Settings)
    ensures InitModel(InitModel(s, settings), settings) == InitModel(s, settings)
  {
    InitModelDependsOnlyOnTwoKeys(InitModel(s, settings), s, settings, settings);
  }

  /** With neither key in the settings, `init_model` binds every document
      class to the `auth` database on the default server, from the initial
      state or any other. */
  lemma InitModelFromDefaults(s: State, settings: Settings)
    requires UriKey !in settings && DbKey !in settings
    ensures BoundTo(InitModel(s, settings), Database(DefaultServer, DefaultDbName))
  {
  }
}
